=== FILE: README.md ===
# Service-medal progress calculator

A Dafny model of the calculator behind a single-page "service medal" tool. A
player holds a medal tier (0 to 3) and a level inside it (1 to 39, 5000 XP per
level). One medal is worth 195000 XP. For every higher tier up to 4, the
calculator reports:

- the XP still required;
- the XP to earn per week until the end of the year, rounded up;
- whether that weekly amount is at most 20000.

The model has three modules:

- `Arith` (`arith.dfy`): integer ceiling division and its laws.
- `Weeks` (`weeks.dfy`): `getWeeksLeftInYear`, turning a millisecond distance into whole weeks, rounded up.
- `Progress` (`progress.dfy`): the `BadgeProgress` record, validation, current XP, target tiers and the per-tier projection.

Two more modules state properties. `ProgressFacts` (`progress_facts.dfy`) relates the records of one calculation to each other and to the calculation one week earlier, and holds the worked scenarios. `AsWritten` (`as_written.dfy`) keeps the source's JavaScript arithmetic on 31 December for the finding below.

The source signals errors and results through React state updates (`setError`,
`setResults`). Here they are one returned `Result`: `InvalidLevel`,
`InvalidMedal`, `NoTimeRemaining` or `Ok(records)`.

The end of the year is taken where the code takes it. `new Date(year, 11, 31)`
is midnight at the START of 31 December of the current year, so any instant on
31 December itself leaves zero weeks (`Weeks.LastDays`). The model then returns
`NoTimeRemaining`. How the source itself behaves on that day is recorded under
"## Findings" and modelled in `AsWritten` (`as_written.dfy`).

## Model

| member | source | states |
|---|---|---|
| Arith.CeilDiv | src/App.tsx:56 | `Math.ceil(a / b)` for a positive divisor: the result `q` satisfies `(q-1)*b < a <= q*b` |
| Arith.CeilDivUnique | src/App.tsx:56 | any `q` meeting those two bounds is the ceiling, so the bounds define the rounding exactly |
| Arith.CeilDivMono | src/App.tsx:56 | rounding up is monotone in the numerator |
| Arith.CeilDivShift | src/App.tsx:31 | adding `k` whole divisors to the numerator adds exactly `k` to the rounded-up quotient |
| Arith.CeilDivPositive | src/App.tsx:31 | the rounded-up quotient is at least 1 exactly when the numerator is positive |
| Arith.CeilDivAntitone | src/App.tsx:56 | spreading a non-negative amount over more weeks never raises the rounded-up weekly share |
| Weeks.WeeksLeft | src/App.tsx:30-31 | a millisecond distance rounded up to weeks of 604800000 ms: `(w-1)*week < diff <= w*week`, and `w >= 1` exactly when the distance is positive |
| Weeks.WeeksLeftInYear | src/App.tsx:27-33 | the distance from now to the start of 31 December rounded up to weeks, `(w-1)*week < dec31 - now <= w*week`; at least one week is left exactly when now is before that instant |
| Weeks.LastDays | src/App.tsx:29-31 | in the week before the start of 31 December one week is left; on 31 December itself none is |
| Weeks.WeekEarlier | src/App.tsx:30-31 | for the same 31 December, one week earlier leaves exactly one more week |
| Progress.ErrorMessage | src/App.tsx:37-43 | the level error shows "Level must be between 1 and 39" and the medal error "Current medal must be between 0 and 3" |
| Progress.ErrorMessagesDistinct | src/App.tsx:37-43 | two errors show the same message exactly when they are the same error |
| Progress.CurrentXP | src/App.tsx:49 | the `medal > 0` and `medal == 0` branches both equal `195000*medal + (level-1)*5000`, which lies in [0, 775000] for valid inputs |
| Progress.TargetTiers | src/App.tsx:52 | `4 - medal` tiers, the i-th being `medal+1+i`, strictly ascending |
| Progress.TargetTiersContents | src/App.tsx:52 | a tier is listed exactly when it lies above `medal` and at most 4 |
| Progress.Project | src/App.tsx:54-66 | one record: required XP plus current XP is `195000*tier`; weekly XP is the rounded-up share per week; achievable exactly when weekly XP is at most 20000 |
| Progress.CalculateProgress | src/App.tsx:35-69 | bad level gives the level error, checked before the medal; with a good level, a bad medal gives the medal error; otherwise `4 - medal` records, record i for tier `medal+1+i` needing `195000*(i+1) - (level-1)*5000` XP, with the ceiling bounds and the 20000 threshold |
| Progress.CalculateProgressAt | src/App.tsx:28-69 | at an instant: the level error first, then the medal error, then `NoTimeRemaining` from the start of 31 December on; otherwise `4 - medal` records sharing one week count `w >= 1` with `(w-1)*week < dec31 - now <= w*week` |
| ProgressFacts.TiersAscending | src/App.tsx:52-54 | record tiers strictly ascend, and the last is tier 4 |
| ProgressFacts.WeeksShared | src/App.tsx:50 | all records of one call carry the same `weeksLeft` |
| ProgressFacts.XpRequiredSteps | src/App.tsx:55 | required XP is `195000*tier - currentXP`, at least 5000, and rises by exactly 195000 from one record to the next |
| ProgressFacts.WeeklyIsCeiling | src/App.tsx:56 | each record's weekly XP is the ceiling of required XP over weeks left, and at least 1 |
| ProgressFacts.WeeklyNonDecreasing | src/App.tsx:54-56 | weekly XP never decreases from a lower target tier to a higher one |
| ProgressFacts.AchievablePrefix | src/App.tsx:57 | if a tier is achievable, every lower tier is; once one is not, no higher one is |
| ProgressFacts.EarlierNeverHarder | src/App.tsx:29-57 | with both instants in the same year, one week earlier each record has one more week, the same required XP, no larger weekly XP, and stays achievable if it was |
| ProgressFacts.CeilDivExamples | src/App.tsx:56 | 100 over 3 is 34; 100000 over 5 is exactly 20000; 100001 over 5 is 20001 |
| ProgressFacts.ValidationExamples | src/App.tsx:36-46 | levels 0 and 40 give the level error; medals -1 and 4 give the medal error; with both bad, the level error wins |
| ProgressFacts.ScenarioFreshPlayer | src/App.tsx:49-66 | level 1, no medal, 10 weeks: tier 1 needs 195000 at 19500 a week (achievable); tier 4 needs 780000 at 78000 (not achievable) |
| ProgressFacts.ScenarioAtTheCap | src/App.tsx:49-66 | level 20, medal 2, 5 weeks: current XP 485000; tier 3 needs 100000 at exactly 20000 a week, which counts as achievable |
| AsWritten.WeeklyAsWritten | src/App.tsx:31-56 | the JavaScript quotient is finite exactly before 31 December, with the ceiling bounds; `+Infinity` at midnight; `-Infinity` later that day |
| AsWritten.AchievableAsWritten | src/App.tsx:55-57 | the source's achievable flag: before 31 December it holds exactly when the rounded-up weekly XP is at most 20000; at midnight on 31 December (`+Infinity`) it is false; later that day (`-Infinity`) it is true |
| AsWritten.AgreesBeforeDec31 | src/App.tsx:30-57 | before 31 December the source's weekly XP and achievable flag equal the model's for every record |
| AsWritten.Dec31EveryTierAchievable | src/App.tsx:29-57 | after midnight on 31 December the source flags every tier achievable, while the model returns `NoTimeRemaining` |
| AsWritten.Dec31NoonExample | src/App.tsx:29-57 | at noon on 31 December, level 1 with no medal, the 780000 XP fourth medal is flagged achievable by the source |

## Left out

- React state, callbacks and rendering (src/App.tsx:19-24, 71-223) and the medal image map (src/App.tsx:12-17). These are presentation only. The error and result state is the returned `Result`.
- Clock access (`new Date()`, `getFullYear`, `getTime`, src/App.tsx:28-30). The current instant and the start of 31 December are parameters in milliseconds. Time zones and calendar arithmetic are not modelled.
- ProgressFacts.EarlierNeverHarder: says nothing when the earlier instant falls in the previous year (1 to 7 January). The source then measures to the previous year's 31 December, and the earlier instant can leave fewer weeks, not more. Because calendar arithmetic is not modelled, the lemma requires the earlier instant to be at least 364 days before the start of 31 December, which is conservative by one day in a leap year.
- Floating point. `Math.ceil(x / y)` is modelled as exact integer ceiling division. All operands are integers well below 2^53, so the rounded double quotient is never pushed across an integer.
- Zero weeks left. `endOfYear` is built from the current year (src/App.tsx:29), so the week count is never negative; on 31 December it is a signed zero. At midnight exactly the source divides by `+0` and shows `+Infinity` weekly XP, not achievable. Later that day `Math.ceil` of the negative fraction is `-0`, the weekly XP is `-Infinity`, and every tier shows as achievable (see "## Findings"). The model's `CalculateProgress` returns `NoTimeRemaining` instead, after both validation checks, which is where the source computes the weeks. Its message is the model's own; the source has none. `AsWritten` keeps the source's signed-zero arithmetic for comparison.
- Input coercion. `parseInt(...) || 0` and the `isNaN` guards (src/App.tsx:36, 42, 105, 120) concern JavaScript number coercion. Inputs are plain integers.
- Display formatting with `toLocaleString` (src/App.tsx:192, 212).

## Findings

| source | as written | input that shows it | evidently intended | confidence | as-written member | corrected member |
|---|---|---|---|---|---|---|
| src/App.tsx:29-57 | on 31 December after midnight the week count is `-0`, the weekly XP `-Infinity`, and `-Infinity <= 20000` flags every tier achievable this year | level 1, medal 0, noon on 31 December: the fourth medal (780000 XP) is shown achievable | with no week left no tier is achievable; report that no time remains | high (not executed) | AsWritten.Dec31EveryTierAchievable | Progress.CalculateProgressAt |

=== FILE: arith.dfy ===
/** Integer ceiling division, the exact counterpart of JavaScript's
    `Math.ceil(a / b)` for an integer numerator and a positive integer divisor. */
module Arith {

  /** Multiplying by a positive factor keeps the order of two integers. */
  lemma MulLeMono(x: int, y: int, b: int)
    requires x <= y && b > 0
    ensures x * b <= y * b
  {
    assert y * b - x * b == (y - x) * b;
  }

  /** The smallest `q` with `q * b >= a`: rounding `a / b` up, never down. */
  function CeilDiv(a: int, b: int): (q: int)
    requires b > 0
    ensures (q - 1) * b < a <= q * b
  {
    var q := (a + b - 1) / b;
    assert (a + b - 1) == q * b + (a + b - 1) % b;
    q
  }

  /** The two bounds of `CeilDiv` determine its value: any `q` meeting them is it. */
  lemma CeilDivUnique(a: int, b: int, q: int)
    requires b > 0
    requires (q - 1) * b < a <= q * b
    ensures q == CeilDiv(a, b)
  {
    var r := CeilDiv(a, b);
    if q < r {
      MulLeMono(q, r - 1, b);
      assert false;
    } else if q > r {
      MulLeMono(r, q - 1, b);
      assert false;
    }
  }

  /** Rounding up is monotone in the numerator. */
  lemma CeilDivMono(a1: int, a2: int, b: int)
    requires b > 0 && a1 <= a2
    ensures CeilDiv(a1, b) <= CeilDiv(a2, b)
  {
    var q1, q2 := CeilDiv(a1, b), CeilDiv(a2, b);
    if q1 > q2 {
      MulLeMono(q2, q1 - 1, b);
      assert false;
    }
  }

  /** Adding `k` whole divisors to the numerator adds exactly `k` to the quotient. */
  lemma CeilDivShift(a: int, b: int, k: int)
    requires b > 0
    ensures CeilDiv(a + k * b, b) == CeilDiv(a, b) + k
  {
    var q := CeilDiv(a, b);
    assert (q + k - 1) * b == (q - 1) * b + k * b;
    assert (q + k) * b == q * b + k * b;
    CeilDivUnique(a + k * b, b, q + k);
  }

  /** The quotient is positive exactly when the numerator is. */
  lemma CeilDivPositive(a: int, b: int)
    requires b > 0
    ensures CeilDiv(a, b) >= 1 <==> a > 0
  {
    var q := CeilDiv(a, b);
    if q >= 1 {
      MulLeMono(0, q - 1, b);
    } else {
      MulLeMono(q, 0, b);
    }
  }

  /** Spreading a non-negative numerator over a larger divisor never needs a
      larger rounded-up share. */
  lemma CeilDivAntitone(a: int, b1: int, b2: int)
    requires a >= 0 && 0 < b1 <= b2
    ensures CeilDiv(a, b2) <= CeilDiv(a, b1)
  {
    var q1, q2 := CeilDiv(a, b1), CeilDiv(a, b2);
    CeilDivPositive(a, b1);
    if q1 < q2 {
      if q1 > 0 {
        MulLeMono(b1, b2, q1);
      }
      MulLeMono(q1, q2 - 1, b2);
      assert false;
    }
  }
}

=== FILE: as_written.dfy ===
/** The source's arithmetic on 31 December, kept apart from the rest of the model.
    There `endOfYear` (midnight at the start of 31 December of the current year)
    lies up to one day in the past, `Math.ceil` of the negative fraction of a week
    is JavaScript's `-0`, and dividing the (positive) required XP by it gives
    `-Infinity`, which passes the `<= 20000` test. Only at midnight exactly is the
    week count `+0` and the quotient `+Infinity`. */
module AsWritten {
  import opened Arith
  import opened Weeks
  import opened Progress

  /** The values `Math.ceil(xpRequired / weeksLeft)` can take in the source. */
  datatype JsQuotient = Finite(value: int) | PlusInfinity | MinusInfinity

  /** `Math.ceil(xpRequired / weeksLeft)` with `weeksLeft` rounded up from
      `diffMs`. The current instant lies in the same year as 31 December, so the
      distance is more than minus one day. */
  function WeeklyAsWritten(xpRequired: int, diffMs: int): (q: JsQuotient)
    requires xpRequired > 0 && diffMs > -86400000
    ensures q.Finite? <==> diffMs > 0
    ensures q.Finite? ==> (q.value - 1) * WeeksLeft(diffMs) < xpRequired <= q.value * WeeksLeft(diffMs)
    ensures diffMs == 0 ==> q == PlusInfinity
    ensures diffMs < 0 ==> q == MinusInfinity
  {
    var w := WeeksLeft(diffMs);
    if w > 0 then Finite(CeilDiv(xpRequired, w))
    else if diffMs == 0 then PlusInfinity  // a positive number over +0
    else MinusInfinity                      // a positive number over -0
  }

  /** `weeklyXPNeeded <= 20000` on a JavaScript quotient. */
  predicate AtMostCap(q: JsQuotient) {
    match q
    case Finite(n) => n <= WeeklyCap
    case PlusInfinity => false
    case MinusInfinity => true
  }

  /** The achievable flag the source shows for target `tier` at instant `nowMs`. */
  function AchievableAsWritten(level: int, medal: int, tier: int, nowMs: int, dec31Ms: int): (b: bool)
    requires ValidLevel(level) && ValidMedal(medal) && medal < tier <= TopTier
    requires nowMs < dec31Ms + 86400000
    ensures nowMs < dec31Ms ==>
      (b <==> CeilDiv(XpPerMedal * tier - CurrentXP(level, medal), WeeksLeftInYear(nowMs, dec31Ms)) <= WeeklyCap)
    ensures nowMs == dec31Ms ==> !b
    ensures nowMs > dec31Ms ==> b
  {
    AtMostCap(WeeklyAsWritten(XpPerMedal * tier - CurrentXP(level, medal), dec31Ms - nowMs))
  }

  /** Before 31 December the source and the model agree on every record: the
      weekly XP is the model's, and so is the achievable flag. */
  lemma AgreesBeforeDec31(level: int, medal: int, nowMs: int, dec31Ms: int, i: int)
    requires ValidLevel(level) && ValidMedal(medal) && nowMs < dec31Ms
    requires 0 <= i < TopTier - medal
    ensures var p := CalculateProgressAt(level, medal, nowMs, dec31Ms).records[i];
      && WeeklyAsWritten(p.xpRequired, dec31Ms - nowMs) == Finite(p.weeklyXPNeeded)
      && AchievableAsWritten(level, medal, p.level, nowMs, dec31Ms) == p.achievableThisYear
  {
    var p := CalculateProgressAt(level, medal, nowMs, dec31Ms).records[i];
    var q := WeeklyAsWritten(p.xpRequired, dec31Ms - nowMs);
    CeilDivUnique(p.xpRequired, WeeksLeft(dec31Ms - nowMs), q.value);
    CeilDivUnique(p.xpRequired, WeeksLeft(dec31Ms - nowMs), p.weeklyXPNeeded);
  }

  /** After midnight on 31 December the source shows every tier as achievable
      this year, however much XP it needs, while the model reports that no time
      is left. */
  lemma Dec31EveryTierAchievable(level: int, medal: int, tier: int, nowMs: int, dec31Ms: int)
    requires ValidLevel(level) && ValidMedal(medal) && medal < tier <= TopTier
    requires dec31Ms < nowMs < dec31Ms + 86400000
    ensures AchievableAsWritten(level, medal, tier, nowMs, dec31Ms)
    ensures CalculateProgressAt(level, medal, nowMs, dec31Ms) == NoTimeRemaining
  {
  }

  /** Noon on 31 December, level 1 with no medal: the fourth medal needs 780000 XP
      with no week left, yet the source calls it achievable this year. */
  lemma Dec31NoonExample()
    ensures AchievableAsWritten(1, 0, 4, 43200000, 0)
    ensures CalculateProgressAt(1, 0, 43200000, 0) == NoTimeRemaining
  {
    assert WeeklyAsWritten(780000, -43200000) == MinusInfinity;
  }
}

=== FILE: progress.dfy ===
/** The service-medal progress calculator, `calculateProgress` in src/App.tsx:35-69.
    Given the player's level inside the current medal and the medal tier already
    held, it projects, for every higher tier, the XP still to earn and the XP to
    earn per week until the end of the year. The React state updates of the source
    (`setError`, `setResults`) become the returned `Result`. */
module Progress {
  import opened Arith
  import opened Weeks

  /** XP that makes up one full medal tier. */
  const XpPerMedal: int := 195000
  /** XP that makes up one level inside a medal. */
  const XpPerLevel: int := 5000
  /** The highest weekly XP still counted as achievable. */
  const WeeklyCap: int := 20000
  /** The highest medal tier. */
  const TopTier: int := 4

  /** One projection, the `BadgeProgress` record of src/App.tsx:4-10. */
  datatype BadgeProgress = BadgeProgress(
    level: int,              // the target medal tier
    weeksLeft: int,          // weeks left in the year, the same in every record
    xpRequired: int,         // XP still to earn to reach `level`
    weeklyXPNeeded: int,     // `xpRequired` spread over `weeksLeft`, rounded up
    achievableThisYear: bool // `weeklyXPNeeded` is at most `WeeklyCap`
  )

  /** What one calculation produces: one of the two validation errors of the
      source, the case where no positive number of weeks is left to divide by
      (31 December, where the source divides by a signed zero, see `AsWritten`),
      or the list of projections. */
  datatype Result =
    | InvalidLevel
    | InvalidMedal
    | NoTimeRemaining
    | Ok(records: seq<BadgeProgress>)

  /** The message shown for each error. The third has no counterpart in the
      source, which shows an infinite weekly XP on 31 December instead. */
  function ErrorMessage(r: Result): (m: string)
    requires !r.Ok?
    ensures r == InvalidLevel ==> m == "Level must be between 1 and 39"
    ensures r == InvalidMedal ==> m == "Current medal must be between 0 and 3"
    ensures |m| > 0
  {
    match r
    case InvalidLevel => "Level must be between 1 and 39"
    case InvalidMedal => "Current medal must be between 0 and 3"
    case NoTimeRemaining => "No weeks left in the year"
  }

  /** Each message names exactly one error, so the user can tell them apart. */
  lemma ErrorMessagesDistinct(a: Result, b: Result)
    requires !a.Ok? && !b.Ok?
    ensures ErrorMessage(a) == ErrorMessage(b) <==> a == b
  {
    if a != b {
      var ma, mb := ErrorMessage(a), ErrorMessage(b);
      assert ma[0] != mb[0];
    }
  }

  /** The level passes the range check whose failure src/App.tsx:36 reports. */
  predicate ValidLevel(level: int) {
    1 <= level <= 39
  }

  /** The medal passes the range check whose failure src/App.tsx:42 reports. */
  predicate ValidMedal(medal: int) {
    0 <= medal <= 3
  }

  /** XP earned so far, with the source's two branches for `medal > 0` and
      `medal == 0`; both are the single closed form below. */
  function CurrentXP(level: int, medal: int): (xp: int)
    requires medal >= 0
    ensures xp == XpPerMedal * medal + (level - 1) * XpPerLevel
    ensures ValidLevel(level) && ValidMedal(medal) ==> 0 <= xp <= 775000
  {
    if medal > 0 then XpPerMedal * medal + (level - 1) * XpPerLevel
    else (level - 1) * XpPerLevel
  }

  /** The `4 - medal` target tiers from `medal + 1` up, as built at src/App.tsx:52. */
  function TargetTiers(medal: int): (tiers: seq<int>)
    requires 0 <= medal <= TopTier
    ensures |tiers| == TopTier - medal
    ensures forall i :: 0 <= i < |tiers| ==> tiers[i] == medal + 1 + i
    ensures forall i, j :: 0 <= i < j < |tiers| ==> tiers[i] < tiers[j]
  {
    seq(TopTier - medal, i => i + medal + 1)
  }

  /** The target tiers are exactly the tiers above `medal`, up to the top one. */
  lemma TargetTiersContents(medal: int)
    requires 0 <= medal <= TopTier
    ensures forall t :: t in TargetTiers(medal) <==> medal < t <= TopTier
  {
    var tiers := TargetTiers(medal);
    forall t | medal < t <= TopTier
      ensures t in tiers
    {
      assert tiers[t - medal - 1] == t;
    }
  }

  /** The projection for one target tier, the body of the `map` at src/App.tsx:54-66. */
  function Project(tier: int, currentXP: int, weeksLeft: int): (p: BadgeProgress)
    requires weeksLeft > 0
    ensures p.level == tier && p.weeksLeft == weeksLeft
    ensures p.xpRequired + currentXP == XpPerMedal * tier
    ensures p.weeklyXPNeeded * weeksLeft >= p.xpRequired
    ensures (p.weeklyXPNeeded - 1) * weeksLeft < p.xpRequired
    ensures p.achievableThisYear <==> p.weeklyXPNeeded <= WeeklyCap
  {
    var xpRequired := XpPerMedal * tier - currentXP;
    var weekly := CeilDiv(xpRequired, weeksLeft);
    BadgeProgress(tier, weeksLeft, xpRequired, weekly, weekly <= WeeklyCap)
  }

  /** `calculateProgress` for a given number of weeks left. The level is checked
      before the medal, and the first failing check decides the error. */
  function CalculateProgress(level: int, medal: int, weeksLeft: int): (r: Result)
    ensures !ValidLevel(level) ==> r == InvalidLevel
    ensures ValidLevel(level) && !ValidMedal(medal) ==> r == InvalidMedal
    ensures ValidLevel(level) && ValidMedal(medal) && weeksLeft <= 0 ==> r == NoTimeRemaining
    ensures r.Ok? <==> ValidLevel(level) && ValidMedal(medal) && weeksLeft > 0
    ensures r.Ok? ==> |r.records| == TopTier - medal
    ensures r.Ok? ==> forall i :: 0 <= i < |r.records| ==>
      var p := r.records[i];
      && p.level == medal + 1 + i
      && p.weeksLeft == weeksLeft
      && p.xpRequired == XpPerMedal * (i + 1) - (level - 1) * XpPerLevel
      && p.weeklyXPNeeded * weeksLeft >= p.xpRequired
      && (p.weeklyXPNeeded - 1) * weeksLeft < p.xpRequired
      && (p.achievableThisYear <==> p.weeklyXPNeeded <= WeeklyCap)
  {
    if !ValidLevel(level) then InvalidLevel
    else if !ValidMedal(medal) then InvalidMedal
    else if weeksLeft <= 0 then NoTimeRemaining
    else
      var currentXP := CurrentXP(level, medal);
      var tiers := TargetTiers(medal);
      Ok(seq(|tiers|, i requires 0 <= i < |tiers| => Project(tiers[i], currentXP, weeksLeft)))
  }

  /** The whole calculation at instant `nowMs`, with `dec31Ms` the start of
      31 December of the same year: the weeks are computed once and shared. */
  function CalculateProgressAt(level: int, medal: int, nowMs: int, dec31Ms: int): (r: Result)
    ensures !ValidLevel(level) ==> r == InvalidLevel
    ensures ValidLevel(level) && !ValidMedal(medal) ==> r == InvalidMedal
    ensures ValidLevel(level) && ValidMedal(medal) && nowMs >= dec31Ms ==> r == NoTimeRemaining
    ensures r.Ok? <==> ValidLevel(level) && ValidMedal(medal) && nowMs < dec31Ms
    ensures r.Ok? ==> |r.records| == TopTier - medal
    ensures r.Ok? ==> forall i :: 0 <= i < |r.records| ==>
      var w := r.records[i].weeksLeft;
      && w == r.records[0].weeksLeft >= 1
      && (w - 1) * MsPerWeek < dec31Ms - nowMs <= w * MsPerWeek
  {
    CalculateProgress(level, medal, WeeksLeftInYear(nowMs, dec31Ms))
  }
}

=== FILE: progress_facts.dfy ===
/** Properties that relate the records of one calculation to each other, and the
    worked scenarios of the calculator. */
module ProgressFacts {
  import opened Arith
  import opened Weeks
  import opened Progress

  /** The records of a successful calculation. */
  function Records(level: int, medal: int, weeksLeft: int): (ps: seq<BadgeProgress>)
    requires ValidLevel(level) && ValidMedal(medal) && weeksLeft > 0
    ensures |ps| == TopTier - medal
  {
    CalculateProgress(level, medal, weeksLeft).records
  }

  /** Target tiers rise by one from record to record and end at the top tier. */
  lemma TiersAscending(level: int, medal: int, weeksLeft: int, i: int, j: int)
    requires ValidLevel(level) && ValidMedal(medal) && weeksLeft > 0
    requires 0 <= i < j < TopTier - medal
    ensures Records(level, medal, weeksLeft)[i].level < Records(level, medal, weeksLeft)[j].level
    ensures Records(level, medal, weeksLeft)[TopTier - medal - 1].level == TopTier
  {
  }

  /** Every record carries the same number of weeks. */
  lemma WeeksShared(level: int, medal: int, weeksLeft: int, i: int, j: int)
    requires ValidLevel(level) && ValidMedal(medal) && weeksLeft > 0
    requires 0 <= i < TopTier - medal && 0 <= j < TopTier - medal
    ensures Records(level, medal, weeksLeft)[i].weeksLeft == Records(level, medal, weeksLeft)[j].weeksLeft
  {
  }

  /** The XP still required rises by exactly one medal's worth from one record to
      the next, and is never below one level's worth: at most 38 levels of the
      current medal are already earned, 190000 XP, short of the 195000 a medal needs. */
  lemma XpRequiredSteps(level: int, medal: int, weeksLeft: int, i: int)
    requires ValidLevel(level) && ValidMedal(medal) && weeksLeft > 0
    requires 0 <= i < TopTier - medal
    ensures var ps := Records(level, medal, weeksLeft);
      && ps[i].xpRequired == XpPerMedal * ps[i].level - CurrentXP(level, medal)
      && ps[i].xpRequired >= XpPerLevel
      && (i + 1 < |ps| ==> ps[i + 1].xpRequired == ps[i].xpRequired + XpPerMedal)
  {
  }

  /** The weekly XP of a record is the rounded-up quotient of its required XP by
      the weeks left: the unique value meeting the two bounds of the source's
      `Math.ceil`, and always positive. */
  lemma WeeklyIsCeiling(level: int, medal: int, weeksLeft: int, i: int)
    requires ValidLevel(level) && ValidMedal(medal) && weeksLeft > 0
    requires 0 <= i < TopTier - medal
    ensures var p := Records(level, medal, weeksLeft)[i];
      p.weeklyXPNeeded == CeilDiv(p.xpRequired, weeksLeft) >= 1
  {
    var p := Records(level, medal, weeksLeft)[i];
    CeilDivUnique(p.xpRequired, weeksLeft, p.weeklyXPNeeded);
    CeilDivPositive(p.xpRequired, weeksLeft);
  }

  /** Weekly XP never decreases from a lower target tier to a higher one. */
  lemma WeeklyNonDecreasing(level: int, medal: int, weeksLeft: int, i: int, j: int)
    requires ValidLevel(level) && ValidMedal(medal) && weeksLeft > 0
    requires 0 <= i <= j < TopTier - medal
    ensures Records(level, medal, weeksLeft)[i].weeklyXPNeeded
         <= Records(level, medal, weeksLeft)[j].weeklyXPNeeded
  {
    var ps := Records(level, medal, weeksLeft);
    WeeklyIsCeiling(level, medal, weeksLeft, i);
    WeeklyIsCeiling(level, medal, weeksLeft, j);
    CeilDivMono(ps[i].xpRequired, ps[j].xpRequired, weeksLeft);
  }

  /** The achievable tiers form a prefix of the records: once a tier is out of
      reach this year, so is every higher one, and a reachable tier means every
      lower one is reachable too. */
  lemma AchievablePrefix(level: int, medal: int, weeksLeft: int, i: int, j: int)
    requires ValidLevel(level) && ValidMedal(medal) && weeksLeft > 0
    requires 0 <= i <= j < TopTier - medal
    ensures var ps := Records(level, medal, weeksLeft);
      ps[j].achievableThisYear ==> ps[i].achievableThisYear
  {
    WeeklyNonDecreasing(level, medal, weeksLeft, i, j);
  }

  /** Asking one week earlier in the same year never makes a tier harder: the
      same XP is spread over exactly one more week, so the weekly XP does not grow
      and a tier achievable now was achievable then. Both instants lie in the year
      of `dec31Ms`: the earlier one is no earlier than 364 days before the start
      of 31 December, which is 1 January of a common year (2 January of a leap
      year). Before that, the source measures to the previous year's 31 December. */
  lemma EarlierNeverHarder(level: int, medal: int, nowMs: int, dec31Ms: int, i: int)
    requires ValidLevel(level) && ValidMedal(medal) && nowMs < dec31Ms
    requires dec31Ms - 364 * 86400000 <= nowMs - MsPerWeek
    requires 0 <= i < TopTier - medal
    ensures var r := CalculateProgressAt(level, medal, nowMs, dec31Ms);
      var e := CalculateProgressAt(level, medal, nowMs - MsPerWeek, dec31Ms);
      && e.records[i].weeksLeft == r.records[i].weeksLeft + 1
      && e.records[i].xpRequired == r.records[i].xpRequired
      && e.records[i].weeklyXPNeeded <= r.records[i].weeklyXPNeeded
      && (r.records[i].achievableThisYear ==> e.records[i].achievableThisYear)
  {
    var w := WeeksLeftInYear(nowMs, dec31Ms);
    WeekEarlier(nowMs, dec31Ms);
    WeeklyIsCeiling(level, medal, w, i);
    WeeklyIsCeiling(level, medal, w + 1, i);
    var p := Records(level, medal, w)[i];
    CeilDivAntitone(p.xpRequired, w, w + 1);
  }

  /** Rounding is up, not down or to nearest: 100 XP over 3 weeks is 34 a week,
      and 100000 over 5 weeks is exactly 20000. */
  lemma CeilDivExamples()
    ensures CeilDiv(100, 3) == 34
    ensures CeilDiv(100000, 5) == 20000
    ensures CeilDiv(100001, 5) == 20001
  {
    CeilDivUnique(100, 3, 34);
    CeilDivUnique(100000, 5, 20000);
    CeilDivUnique(100001, 5, 20001);
  }

  /** The validation errors at the edges of both ranges, the level winning when
      both are out of range. */
  lemma ValidationExamples()
    ensures CalculateProgress(0, 0, 10) == InvalidLevel
    ensures CalculateProgress(40, 0, 10) == InvalidLevel
    ensures CalculateProgress(1, -1, 10) == InvalidMedal
    ensures CalculateProgress(1, 4, 10) == InvalidMedal
    ensures CalculateProgress(0, 4, 10) == InvalidLevel
    ensures CalculateProgress(39, 3, 0) == NoTimeRemaining
  {
  }

  /** Level 1 with no medal, ten weeks left: the first tier needs 195000 XP at
      19500 a week, achievable; the fourth needs 780000 at 78000, not achievable. */
  lemma ScenarioFreshPlayer()
    ensures var r := CalculateProgress(1, 0, 10);
      && r.Ok? && |r.records| == 4
      && r.records[0] == BadgeProgress(1, 10, 195000, 19500, true)
      && r.records[3] == BadgeProgress(4, 10, 780000, 78000, false)
  {
    var r := CalculateProgress(1, 0, 10);
    CeilDivUnique(195000, 10, 19500);
    CeilDivUnique(780000, 10, 78000);
    assert r.records[0].weeklyXPNeeded == CeilDiv(195000, 10);
    assert r.records[3].weeklyXPNeeded == CeilDiv(780000, 10);
  }

  /** Level 20 with two medals, five weeks left: 485000 XP earned, so the third
      tier needs 100000 at exactly 20000 a week, which still counts as achievable. */
  lemma ScenarioAtTheCap()
    ensures CurrentXP(20, 2) == 485000
    ensures var r := CalculateProgress(20, 2, 5);
      && r.Ok? && |r.records| == 2
      && r.records[0] == BadgeProgress(3, 5, 100000, 20000, true)
  {
    var r := CalculateProgress(20, 2, 5);
    CeilDivUnique(100000, 5, 20000);
    assert r.records[0].weeklyXPNeeded == CeilDiv(100000, 5);
  }
}

=== FILE: weeks.dfy ===
/** Weeks remaining in the calendar year, as `getWeeksLeftInYear` computes them
    (src/App.tsx:27-33). Reading the wall clock is not modelled: the caller passes
    the instants, in milliseconds since the epoch, or their difference. */
module Weeks {
  import opened Arith

  /** 1000 * 60 * 60 * 24 * 7 milliseconds. */
  const MsPerWeek: int := 604800000

  /** A millisecond difference rounded UP to whole weeks: a partial week counts
      as a full one, and a difference of zero or less gives no positive week. */
  function WeeksLeft(diffMs: int): (w: int)
    ensures (w - 1) * MsPerWeek < diffMs <= w * MsPerWeek
    ensures w >= 1 <==> diffMs > 0
  {
    CeilDivPositive(diffMs, MsPerWeek);
    CeilDiv(diffMs, MsPerWeek)
  }

  /** The source measures from `nowMs` to `new Date(year, 11, 31)`, which is
      midnight at the START of 31 December (`dec31Ms`), not the end of the year. */
  function WeeksLeftInYear(nowMs: int, dec31Ms: int): (w: int)
    ensures (w - 1) * MsPerWeek < dec31Ms - nowMs <= w * MsPerWeek
    ensures w >= 1 <==> nowMs < dec31Ms
  {
    WeeksLeft(dec31Ms - nowMs)
  }

  /** Any instant within the week before the start of 31 December leaves exactly
      one week, and any instant on 31 December itself leaves none. */
  lemma LastDays(nowMs: int, dec31Ms: int)
    requires dec31Ms - MsPerWeek <= nowMs < dec31Ms + 86400000
    ensures nowMs < dec31Ms ==> WeeksLeftInYear(nowMs, dec31Ms) == 1
    ensures nowMs >= dec31Ms ==> WeeksLeftInYear(nowMs, dec31Ms) == 0
  {
    var d := dec31Ms - nowMs;
    if d > 0 {
      CeilDivUnique(d, MsPerWeek, 1);
    } else {
      CeilDivUnique(d, MsPerWeek, 0);
    }
  }

  /** Measured to the same 31 December, moving `now` one week earlier adds
      exactly one week left. */
  lemma WeekEarlier(nowMs: int, dec31Ms: int)
    ensures WeeksLeftInYear(nowMs - MsPerWeek, dec31Ms) == WeeksLeftInYear(nowMs, dec31Ms) + 1
  {
    assert dec31Ms - (nowMs - MsPerWeek) == (dec31Ms - nowMs) + 1 * MsPerWeek;
    CeilDivShift(dec31Ms - nowMs, MsPerWeek, 1);
  }
}
